=== FILE: README.md ===
# Player controller of FusionBlitz, in Dafny

This project models the player controller of the FusionBlitz platformer, which is the
`Player` class in `src/entities/player.cpp`. It covers five parts of that class:

- the input actions `move`, `jump`, `roll`, `attack` and `takeDamage`, with the guards that
  make each of them a no-op;
- the per-frame `update`: the invincibility, jump, attack, roll and recoil countdowns,
  walking and rolling, the ceiling check, gravity and the vertical move, knock-back,
  the choice of animation, wall-jump detection and the pruning of finished effects;
- the collision resolver `moveHelp`. It displaces the collision box and then backs it out
  of each obstacle in turn. A horizontal move first tries to step up onto a ledge of at
  most `UP_MARGIN` units;
- the one-unit adjacency probes: `detectOnGround`, the ceiling check and the wall check;
- the sprite-sheet animation sequencer: `setupAnimations`, `changeAnimation` and
  `updateAnimation`, with play-once animations that hand over to a queued next animation.

Modules:

- `Geometry`: rectangles, overlap and the "any obstacle overlaps" scan.
- `Resolver`: `moveHelp`'s arithmetic on the box, and the probes.
- `Animation`: the frame table and the sequencer.
- `Effects`: spawned effects and their pruning.
- `Controller`: the player's state, its invariant, the constructor and the actions.
- `Tick`: `update`, stage by stage.
- `Properties`: facts that relate several calls.

Assumptions:

- Obstacles are integer axis-aligned rectangles. For rectangles of positive width and
  height, two collide when they overlap with positive area; touching edges do not collide.
- The frame time `delta` is a whole number of milliseconds.
- Velocities and speeds are real numbers. Every float-to-int conversion truncates toward
  zero, as C++ does.
- The tuning constants of the header (`JUMP_HEIGHT`, `SPEED`, `UP_MARGIN`,
  `HIT_BOX_MARGIN_X`, `ANIMATION_INTERVAL`, ...) are fields of a `Config`, with the sign
  conditions `ValidConfig` states. So are the animation ids and the frame table.

## Model

| member | source | states |
|---|---|---|
| Geometry.HitsAny | src/entities/player.cpp:396-404 | the probe scan reports a hit exactly when some obstacle overlaps the probe rectangle |
| Resolver.FirstBlockedY | src/entities/player.cpp:358-363 | the step-up scan stops at the first height, going down from the raised probe, at which the box overlaps the obstacle; every height above it is clear |
| Resolver.BackOff | src/entities/player.cpp:351-387 | the loop for one obstacle ends clear of it, keeps the box size, and leaves an already clear box alone. Vertical moves keep x and back off against the move. Horizontal moves back off in x and rise by at most the step-up margin |
| Resolver.VerticalBackOffStopsAtFirstClear | src/entities/player.cpp:351-371 | backing off vertically stops at the first clear height: every height passed over overlaps the obstacle |
| Resolver.HorizontalBackOffStopsAtFirstClear | src/entities/player.cpp:356-384 | backing off horizontally stops at the first clear column; a step-up leaves the box resting directly on the obstacle, which blocked it at its original height |
| Resolver.StepUpOnlyInStartColumn | src/entities/player.cpp:356-384 | a sideways move steps up only in the column where it first meets the obstacle: if the raised box is blocked there, the loop only backs off in x and never rises, so a step-up never comes with a change of x |
| Resolver.ResolveAll | src/entities/player.cpp:350-388 | after the obstacle loop the box has its size, is clear of the last obstacle, is untouched when nothing overlapped, and has moved only against the move direction (or up, for a step-up) |
| Resolver.Resolved | src/entities/player.cpp:335-393 | `moveHelp`'s box: same size, clear of the last obstacle, exactly the displaced box in free space, and x unchanged by vertical moves |
| Resolver.EachObstacleClearedInTurn | src/entities/player.cpp:350-388 | when the loop for obstacle i exits, the box is clear of obstacle i |
| Resolver.UpEndsBetweenTargetAndStart | src/entities/player.cpp:335-388 | an upward move from a clear start ends between the target height and the start, at the same x |
| Resolver.DownEndsBetweenStartAndTarget | src/entities/player.cpp:335-388 | a downward move from a clear start ends between the start and the target height, at the same x |
| Resolver.LaterObstacleCanPushIntoEarlier | src/entities/player.cpp:350-388 | a concrete fall in which backing off the second obstacle leaves the box inside the first one: clearance holds per obstacle, not for the whole map |
| Resolver.StepsOntoLowLedge | src/entities/player.cpp:356-364 | a concrete walk into a one-unit ledge with step-up margin 4 lifts the box onto the ledge instead of blocking it |
| Resolver.DetectOnGround | src/entities/player.cpp:396-404 | grounded exactly when the box moved one unit down overlaps some obstacle |
| Resolver.HittingCeiling | src/entities/player.cpp:406-414 | the ceiling test holds exactly when the box moved one unit up overlaps some obstacle |
| Resolver.BesideWall | src/entities/player.cpp:416-432 | the right-then-left scan finds a wall exactly when the box moved one unit right or left overlaps some obstacle |
| Animation.SetupAnimations | src/entities/player.cpp:290-322 | the table has fifteen animations, each a frame range inside the 15x8 atlas |
| Animation.ChangeAnimation | src/entities/player.cpp:324-328 | switching selects the new animation at its first frame; switching to the running animation changes nothing; the counter and the queued animation are kept |
| Animation.UpdateAnimation | src/entities/player.cpp:230-248 | the frame stays in the running animation and the counter counts up to the interval and resets. When it resets, the frame steps to the next one, or past the last frame a looping animation wraps to its first frame. A looping animation never ends. A play-once animation is left only at the wrap past its last frame, and then always for the queued one |
| Animation.TicksAdd | src/entities/player.cpp:230-248 | m ticks followed by n ticks are m + n ticks |
| Animation.CounterRuns | src/entities/player.cpp:244-246 | while the counter is below the interval, ticks only count |
| Animation.CycleLength | src/entities/player.cpp:230-248 | the rest of the running cycle, from a frame inside the animation, lasts at least one tick |
| Animation.CycleSplits | src/entities/player.cpp:233-236 | the remaining cycle is the ticks to the next frame change plus the cycle from the next frame |
| Animation.FirstAdvance | src/entities/player.cpp:233-245 | the first frame change happens after interval + 2 - counter ticks |
| Animation.AdvanceWithinRange | src/entities/player.cpp:233-236 | a frame change before the last frame moves to the next frame with the counter reset |
| Animation.WrapAtLastFrame | src/entities/player.cpp:236-242 | a frame change at the last frame of a play-once animation wraps and hands over to the queued animation |
| Animation.PlayOnceHoldsUntilWrap | src/entities/player.cpp:230-248 | a play-once animation keeps playing for every tick of its remaining cycle |
| Animation.PlayOnceHandsOverAtWrap | src/entities/player.cpp:230-248 | at the end of the cycle a play-once animation has wrapped to its first frame and switched to the queued animation |
| Effects.Kept | src/entities/player.cpp:211-225 | pruning never adds effects |
| Effects.KeptIsFilter | src/entities/player.cpp:211-225 | pruning keeps every effect not flagged for removal and nothing else; with no flags it is the identity, with all flags it empties the list |
| Effects.PruneEffects | src/entities/player.cpp:216-225 | erasing the flagged indices from the back yields exactly the unflagged effects in their original order |
| Controller.NewPlayer | src/entities/player.cpp:4-38 | the new player satisfies the controller invariant, idle and facing right at the given position with the given health, its 44x64 box at the sprite position, and no effects. All its timers and cooldowns are 0 and it has no walk intent. The vertical velocity, the recoil timer and direction and the dead flag are the given ones |
| Controller.Move | src/entities/player.cpp:47-58 | ignored while attacking or rolling; otherwise it sets the walk intent for the asked side (0 is right, anything else left) and turns to face it, touching nothing else |
| Controller.Jump | src/entities/player.cpp:60-74 | allowed only with canJump, no jump cooldown and no roll. It sets the jump velocity and cooldown, spends canJump and leaves the ground, and cannot be repeated at once. In the air it switches to the wall jump, starting at its first frame unless it is already playing, keeps the frame counter, and queues the animation that was running |
| Controller.Roll | src/entities/player.cpp:76-86 | ignored while attacking or rolling; otherwise it starts the roll and invincibility windows and switches to the roll animation in the facing direction, starting at its first frame unless it is already playing and keeping the frame counter, queuing idle |
| Controller.AttackAnimation | src/entities/player.cpp:93-94 | the attack animation in the facing direction, starting at its first frame unless it is already playing, with the frame counter kept and idle queued |
| Controller.Attack | src/entities/player.cpp:88-109 | refused exactly while attacking or rolling, and a message is sent exactly when it succeeds. It starts the attack window, switches to the attack animation, appends one effect and sends a one-damage message to enemies whose 100x100 hit box is that effect's area, 36 above the sprite and 36 to its left when facing left |
| Controller.TakeDamage | src/entities/player.cpp:258-270 | ignored while invincible. Otherwise health drops by exactly the damage, knock-back away from the hit and invincibility start, and dead is set exactly when health reaches 0 or less (or it was already set), with the death animation, started at its first frame unless already playing, queuing the death idle |
| Controller.DamageAnimation | src/entities/player.cpp:263-267 | once health is gone, a switch to the death animation in the facing direction, starting at its first frame unless it is already playing, with the frame counter kept and the death idle queued; unchanged otherwise |
| Tick.TruncToInt | src/entities/player.cpp:151 | float-to-int conversion truncates toward zero |
| Tick.Clamp | src/entities/player.cpp:160 | the result lies within the bounds and equals the input when that is already within them |
| Tick.ClampedCountdown | src/entities/player.cpp:124-127 | the invincibility countdown, while running, loses delta and never goes below zero or above its old value; it reaches zero exactly when delta covers what is left, and a stopped countdown stays put |
| Tick.CoolDownCountdown | src/entities/player.cpp:129-138 | the jump and attack countdowns (stop at zero once delta covers the rest, else subtract) drain exactly like the invincibility countdown |
| Tick.RollCountdown | src/entities/player.cpp:141-145 | the roll countdown, whose guard is `<` rather than `<=`, still drains exactly like the invincibility countdown for every non-negative timer |
| Tick.TickTimers | src/entities/player.cpp:122-145 | each timer follows the reference countdown; attacking ends exactly when its cooldown runs out this tick; rolling ends exactly when its cooldown is below delta; nothing else changes |
| Tick.TickKeepsTimersInv | src/entities/player.cpp:122-145 | the countdowns keep the timer part of the invariant |
| Tick.HorizontalBox | src/entities/player.cpp:140-156 | horizontal movement keeps the box size, never lowers the box, and leaves it alone without a roll or a walk intent |
| Tick.HorizontalBoxInFreeSpace | src/entities/player.cpp:146-156 | with nothing in the way a roll covers the roll distance in the facing direction, and a walk to the right or to the left covers the walking distance |
| Tick.CeilingCheck | src/entities/player.cpp:406-414 | touching a ceiling turns the velocity into -1; otherwise it is unchanged |
| Tick.FallVelocity | src/entities/player.cpp:157-160 | the new velocity lies in [-20, 20], is zero on the ground, is at most -1 under a ceiling in the air, and never exceeds the old one in the air |
| Tick.VerticalDir | src/entities/player.cpp:161-166 | a negative velocity moves down, any other up |
| Tick.VerticalAmount | src/entities/player.cpp:161-166 | the move distance is the truncated magnitude of the velocity |
| Tick.VerticalBox | src/entities/player.cpp:161-166 | the vertical move keeps x and the box size |
| Tick.VerticalBoxBounds | src/entities/player.cpp:161-166 | in free space the box rises by the truncated velocity; from a clear start it ends between the start and the target height |
| Tick.RecoilBox | src/entities/player.cpp:168-173 | knock-back happens only while the recoil timer runs, never lowers the box, keeps its size, and moves it at most the recoil distance away from the hit; with nothing in the way it moves the box exactly the recoil distance away from the hit |
| Tick.WallCheck | src/entities/player.cpp:416-432 | canJump after the wall check holds exactly when it held before or the box touches an obstacle one unit to its right or left |
| Tick.SelectAnimation | src/entities/player.cpp:175-202 | no change while rolling or attacking; on the ground walk (right first) or idle by facing; in the air the jump animation unless a wall jump plays. A newly chosen animation starts at its first frame, and the frame counter is kept; the frame stays in range |
| Tick.Settle | src/entities/player.cpp:174-208 | onGround becomes the ground probe. canJump is never lost, and it is gained exactly when the player lands while not rolling or attacking, or touches a wall with no jump cooldown; each of these grants it. The walk intents are dropped and nothing else changes |
| Tick.Update | src/entities/player.cpp:122-228 | one tick: the timers follow the reference countdown, and actions end with their cooldowns. The velocity stays in [-20, 20], the intents are dropped and onGround matches the final box. The sprite sits hitBoxMarginX left of the box. Without a roll, an intent or knock-back there is no sideways motion. Health, death, facing, the queued animation are kept, and the effects are pruned |
| Properties.MoveKeepsInv | src/entities/player.cpp:47-58 | move keeps the controller invariant |
| Properties.JumpKeepsInv | src/entities/player.cpp:60-74 | jump keeps the controller invariant |
| Properties.RollKeepsInv | src/entities/player.cpp:76-86 | roll keeps the controller invariant, in particular never rolling while attacking |
| Properties.AttackKeepsInv | src/entities/player.cpp:88-109 | attack keeps the controller invariant, in particular never attacking while rolling |
| Properties.TakeDamageKeepsInv | src/entities/player.cpp:258-270 | takeDamage keeps the controller invariant |
| Properties.SettleThenAdvanceKeepsAnimInv | src/entities/player.cpp:174-227 | the animation choice and frame advance of a tick keep the frame in range and the counter bounded |
| Properties.UpdateKeepsInv | src/entities/player.cpp:122-228 | a tick keeps the controller invariant |
| Properties.NoAttackDuringRoll | src/entities/player.cpp:76-90 | an attack straight after a roll is refused and changes nothing |
| Properties.NoRollDuringAttack | src/entities/player.cpp:76-90 | a roll straight after an attack changes nothing |
| Properties.JumpIsIdempotent | src/entities/player.cpp:60-74 | a second jump without a tick in between changes nothing |
| Properties.SecondHitIgnored | src/entities/player.cpp:258-270 | a second hit without a tick in between changes nothing |
| Properties.DeadPlayerStillTakesDamage | src/entities/player.cpp:258-270 | a dead player without invincibility loses the full damage again and restarts knock-back and invincibility |
| Properties.HealthIsNeverClamped | src/entities/player.cpp:258-270 | from health 1 a hit of 1 kills, an immediate hit of 5 is ignored, and after a tick that drains the invincibility the same hit takes health to -5 |
| Properties.WalkIntentLastsOneTick | src/entities/player.cpp:140-206 | a walk intent moves the player for one tick only: without a roll or knock-back the next tick keeps x |
| Properties.SpriteOffsetChangesOnFirstTick | src/entities/player.cpp:30-32 | the constructor puts the box at the sprite position, while after any tick the sprite sits hitBoxMarginX to the left of the box |

## Left out

- Rendering, textures, the atlas rectangles of `setupAtlas`, the camera and audio have no
  effect on the controller's state and are not modelled.
- The effect's own update and lifetime (the `Effect` class) are not part of this model.
  Whether effect i asked to be removed this tick is the input `expired[i]`.
- The attack messager is not modelled. `Attack` returns the message it would add.
- The constructor does not initialise the vertical velocity: a local variable of the same
  name shadows it. It also leaves the recoil timer, the recoil direction and `DEAD`
  unset. `NewPlayer` takes all four as parameters instead of guessing a value.
- `isColliding` and `Shape` come from files outside this model. An obstacle is an integer
  rectangle and `Colliding` is strict overlap.
- Float arithmetic is modelled with exact reals, so rounding in `SPEED * delta / 1000` and
  similar products is not modelled. Only the truncating conversion to `int` is.
- `delta` is a natural number, while the source takes a `float`. The comparisons
  `jumpTimer <= delta` and `rollCoolDown < delta` and the `static_cast<int>(delta)`
  subtractions therefore agree exactly.
- C++ `int` is modelled as an unbounded integer, so overflow is not modelled: a damage
  large enough to wrap `health -= dmg` (player.cpp:260) or a move amount that wraps
  `newX += amount` (player.cpp:341) behaves in the model as in exact arithmetic.
- `updateAnimation` takes `delta` but never reads it; the model has no such parameter.
- Effects.Kept: its own contract only bounds the length, so that the pruning loop stays
  cheap to verify. The full filter property is `Effects.KeptIsFilter`.
- Tick.Update: its contract does not say where the box ends. The stage contracts and
  lemmas state where each stage ends with nothing in the way, and bound it otherwise
  (`HorizontalBoxInFreeSpace`, `VerticalBoxBounds`, `RecoilBox`).

Behaviours of the code worth knowing; the model follows them:

- Death is not terminal: a dead player still takes damage once invincibility runs out,
  and health goes below zero (`HealthIsNeverClamped`).
- `moveHelp` guarantees clearance only of each obstacle at the moment its loop exits. A
  later obstacle can push the box back into an earlier one
  (`LaterObstacleCanPushIntoEarlier`).
- The ceiling check sets the vertical velocity to -1; it does not zero it.
- The constructor places the box at the sprite position, not `HIT_BOX_MARGIN_X` to its
  right (`SpriteOffsetChangesOnFirstTick`).
- A roll whose cooldown equals `delta` survives one more tick with cooldown 0.

=== FILE: animation.dfy ===
/**
 The player's animation sequencer: a table of 15 animations, each a range of
 cells of the 15x8 sprite atlas plus a play-once flag, and the per-tick frame
 advance that hands a play-once animation over to its follow-up.
 */
module Animation {

  const AnimationCount := 15
  const AtlasRows := 15
  const AtlasColumns := 8
  /** Cells of the sprite atlas built row by row in `setupAtlas`. */
  const AtlasCells := AtlasRows * AtlasColumns

  /** An index into the animation table. */
  type AnimId = i: int | 0 <= i < AnimationCount

  datatype FrameRange = FrameRange(start: int, end: int)

  /** Frame ranges and play-once flags, indexed by animation id. */
  datatype Frames = Frames(ranges: seq<FrameRange>, playOnce: seq<bool>)

  /** Every animation has a non-empty range of existing atlas cells. */
  predicate WellFormed(t: Frames)
  {
    && |t.ranges| == AnimationCount
    && |t.playOnce| == AnimationCount
    && forall i :: 0 <= i < AnimationCount ==> 0 <= t.ranges[i].start <= t.ranges[i].end < AtlasCells
  }

  /** The table filled in by `setupAnimations`. */
  function SetupAnimations(): (t: Frames)
    ensures WellFormed(t)
  {
    Frames(
      [ FrameRange(0, 0), FrameRange(8, 8), FrameRange(16, 23), FrameRange(24, 31),
        FrameRange(32, 32), FrameRange(40, 40), FrameRange(48, 55), FrameRange(56, 63),
        FrameRange(64, 69), FrameRange(72, 77), FrameRange(80, 85), FrameRange(88, 93),
        FrameRange(96, 102), FrameRange(104, 109), FrameRange(112, 117) ],
      [ false, false, false, false, false, false, true, true,
        true, true, true, true, false, true, true ])
  }

  /** A well-formed animation table; the player's is the one `SetupAnimations` builds. */
  type AnimTable = t: Frames | WellFormed(t) witness SetupAnimations()

  function Start(t: AnimTable, id: AnimId): int { t.ranges[id].start }

  function End(t: AnimTable, id: AnimId): int { t.ranges[id].end }

  function PlayOnce(t: AnimTable, id: AnimId): bool { t.playOnce[id] }

  /**
   Sequencer state: the current animation, its frame (an atlas cell), the tick
   counter towards the next frame, and the animation to fall back to when a
   play-once animation finishes.
   */
  datatype AnimState = AnimState(current: AnimId, frame: int, counter: int, next: AnimId)

  predicate FrameInRange(t: AnimTable, a: AnimState)
  {
    Start(t, a.current) <= a.frame <= End(t, a.current)
  }

  /**
   `r` is `a` switched to `id` as `changeAnimation` does it: a newly selected
   animation starts at its first frame, the running one keeps its frame, and the
   counter is kept either way.
   */
  predicate SwitchedTo(t: AnimTable, a: AnimState, id: AnimId, r: AnimState)
  {
    && r.current == id && r.counter == a.counter
    && r.frame == (if id == a.current then a.frame else Start(t, id))
  }

  /** `changeAnimation`: switching to the running animation does not restart it. */
  function ChangeAnimation(t: AnimTable, a: AnimState, id: AnimId): (r: AnimState)
    ensures r.current == id && r.counter == a.counter && r.next == a.next
    ensures id == a.current ==> r == a
    ensures id != a.current ==> r.frame == Start(t, id)
    ensures id != a.current || FrameInRange(t, a) ==> FrameInRange(t, r)
    ensures SwitchedTo(t, a, id, r)
  {
    if id == a.current then a
    else a.(current := id, frame := Start(t, id))
  }

  /**
   `updateAnimation`: once the counter exceeds `interval` the frame advances; past
   the end of the range it wraps to the start, and a play-once animation then
   changes to `next`. The elapsed time is not used.
   */
  function UpdateAnimation(t: AnimTable, a: AnimState, interval: int): (r: AnimState)
    ensures r.next == a.next
    ensures FrameInRange(t, a) ==> FrameInRange(t, r) && 0 <= r.frame < AtlasCells
    // the frame holds while the counter runs
    ensures a.counter <= interval ==> r == a.(counter := a.counter + 1)
    ensures a.counter > interval ==> r.counter == 0
    // once the counter passes the interval, the frame steps on, or wraps to the start
    ensures a.counter > interval && a.frame < End(t, a.current) ==>
              r == a.(counter := 0, frame := a.frame + 1)
    ensures a.counter > interval && a.frame >= End(t, a.current) && !PlayOnce(t, a.current) ==>
              r == a.(counter := 0, frame := Start(t, a.current))
    // a looping animation never ends
    ensures !PlayOnce(t, a.current) ==> r.current == a.current
    // a play-once animation is left only at the wrap past its last frame, and then for `next`
    ensures r.current != a.current ==>
              && PlayOnce(t, a.current) && a.counter > interval && a.frame >= End(t, a.current)
              && r.current == a.next && r.frame == Start(t, a.next)
    ensures PlayOnce(t, a.current) && a.counter > interval && a.frame >= End(t, a.current) ==>
              r.current == a.next
  {
    if a.counter > interval then
      var advanced := a.(counter := 0, frame := a.frame + 1);
      if advanced.frame > End(t, a.current) then
        var wrapped := advanced.(frame := Start(t, a.current));
        if PlayOnce(t, a.current) then ChangeAnimation(t, wrapped, a.next) else wrapped
      else advanced
    else
      a.(counter := a.counter + 1)
  }

  /** `n` consecutive calls of `updateAnimation`. */
  function Ticks(t: AnimTable, a: AnimState, interval: int, n: nat): AnimState
    decreases n
  {
    if n == 0 then a else Ticks(t, UpdateAnimation(t, a, interval), interval, n - 1)
  }

  lemma {:induction false} TicksAdd(t: AnimTable, a: AnimState, interval: int, m: nat, n: nat)
    ensures Ticks(t, a, interval, m + n) == Ticks(t, Ticks(t, a, interval, m), interval, n)
    decreases m
  {
    if m > 0 {
      TicksAdd(t, UpdateAnimation(t, a, interval), interval, m - 1, n);
    }
  }

  /** While the counter has not passed `interval`, ticks only count. */
  lemma {:induction false} CounterRuns(t: AnimTable, a: AnimState, interval: int, j: nat)
    requires 0 <= a.counter && a.counter + j <= interval + 1
    ensures Ticks(t, a, interval, j) == a.(counter := a.counter + j)
    decreases j
  {
    if j > 0 {
      CounterRuns(t, a.(counter := a.counter + 1), interval, j - 1);
    }
  }

  /** Ticks from the given state until the current animation wraps past its last frame. */
  function CycleLength(t: AnimTable, a: AnimState, interval: nat): (n: nat)
    requires FrameInRange(t, a) && 0 <= a.counter <= interval + 1
    ensures n >= 1
  {
    var frames := End(t, a.current) - a.frame + 1;
    ProductAtLeast(frames, interval + 2);
    frames * (interval + 2) - a.counter
  }

  lemma ProductAtLeast(m: nat, k: nat)
    requires m >= 1
    ensures m * k >= k
  {
  }

  /** Each frame of the remaining cycle costs `interval + 2` ticks, the first one fewer by `counter`. */
  lemma CycleSplits(t: AnimTable, a: AnimState, interval: nat)
    requires FrameInRange(t, a) && 0 <= a.counter <= interval + 1
    ensures a.frame == End(t, a.current) ==> CycleLength(t, a, interval) == interval + 2 - a.counter
    ensures a.frame < End(t, a.current) ==>
              CycleLength(t, a, interval)
              == CycleLength(t, a.(counter := 0, frame := a.frame + 1), interval) + interval + 2 - a.counter
  {
  }

  /** The first frame change: after `interval + 2 - counter` ticks. */
  lemma FirstAdvance(t: AnimTable, a: AnimState, interval: nat)
    requires 0 <= a.counter <= interval + 1
    ensures Ticks(t, a, interval, interval + 2 - a.counter)
            == UpdateAnimation(t, a.(counter := interval + 1), interval)
  {
    var m := interval + 1 - a.counter;
    TicksAdd(t, a, interval, m, 1);
    CounterRuns(t, a, interval, m);
  }

  /** A play-once animation keeps running for the whole of its remaining cycle. */
  lemma {:induction false} PlayOnceHoldsUntilWrap(t: AnimTable, a: AnimState, interval: nat, k: nat)
    requires FrameInRange(t, a) && 0 <= a.counter <= interval + 1
    requires k < CycleLength(t, a, interval)
    ensures Ticks(t, a, interval, k).current == a.current
    decreases End(t, a.current) - a.frame
  {
    var m := interval + 2 - a.counter;
    CycleSplits(t, a, interval);
    if k < m {
      CounterRuns(t, a, interval, k);
    } else {
      FirstAdvance(t, a, interval);
      TicksAdd(t, a, interval, m, k - m);
      var b := a.(counter := 0, frame := a.frame + 1);
      assert Ticks(t, a, interval, m) == b;
      PlayOnceHoldsUntilWrap(t, b, interval, k - m);
    }
  }

  /**
   At the end of that cycle a play-once animation wraps to its first frame and
   hands over to `next` (which leaves it looping only when `next` is itself).
   */
  lemma {:induction false} PlayOnceHandsOverAtWrap(t: AnimTable, a: AnimState, interval: nat)
    requires FrameInRange(t, a) && 0 <= a.counter <= interval + 1 && PlayOnce(t, a.current)
    ensures Ticks(t, a, interval, CycleLength(t, a, interval))
            == ChangeAnimation(t, a.(counter := 0, frame := Start(t, a.current)), a.next)
    decreases End(t, a.current) - a.frame
  {
    var m := interval + 2 - a.counter;
    CycleSplits(t, a, interval);
    FirstAdvance(t, a, interval);
    if a.frame < End(t, a.current) {
      var b := a.(counter := 0, frame := a.frame + 1);
      AdvanceWithinRange(t, a, interval);
      TicksAdd(t, a, interval, m, CycleLength(t, b, interval));
      PlayOnceHandsOverAtWrap(t, b, interval);
    } else {
      WrapAtLastFrame(t, a, interval);
    }
  }

  /** A frame change before the last frame moves to the next frame. */
  lemma AdvanceWithinRange(t: AnimTable, a: AnimState, interval: nat)
    requires a.frame < End(t, a.current)
    ensures UpdateAnimation(t, a.(counter := interval + 1), interval) == a.(counter := 0, frame := a.frame + 1)
  {
  }

  /** A frame change at the last frame of a play-once animation hands over to `next`. */
  lemma WrapAtLastFrame(t: AnimTable, a: AnimState, interval: nat)
    requires a.frame >= End(t, a.current) && PlayOnce(t, a.current)
    ensures UpdateAnimation(t, a.(counter := interval + 1), interval)
            == ChangeAnimation(t, a.(counter := 0, frame := Start(t, a.current)), a.next)
  {
  }
}

=== FILE: controller.dfy ===
/**
 The player controller's state, its constructor, the input actions (move, jump,
 roll, attack, take damage).
 */
module Controller {

  import opened Wrappers
  import opened Geometry
  import opened Animation
  import opened Effects

  /** Size of the player's collision box. */
  const BoxWidth := 44
  const BoxHeight := 64

  /** The attack's hit area: 100x100, 36 above the player, 36 to the left when facing left. */
  const AttackOffset := 36
  const AttackSize := 100
  const AttackEffectFrames := 6
  const AttackDamage := 1

  /** The animation ids the controller uses, each an index into the animation table. */
  datatype AnimIds = AnimIds(
    idleRight: AnimId, idleLeft: AnimId,
    moveRight: AnimId, moveLeft: AnimId,
    jumpRight: AnimId, jumpLeft: AnimId,
    attackRight: AnimId, attackLeft: AnimId,
    rollRight: AnimId, rollLeft: AnimId,
    wallJumpRight: AnimId, wallJumpLeft: AnimId,
    deathRight: AnimId, deathLeft: AnimId,
    deathIdle: AnimId)

  /** The tuning constants of the controller; their values are not part of the model. */
  datatype Config = Config(
    jumpHeight: real,         // upward velocity given by a jump
    jumpCooldown: int,        // ms before the next jump
    rollTime: int,            // ms a roll lasts
    attackTime: int,          // ms an attack lasts
    invincibleTime: int,      // ms of invincibility after a roll or a hit
    upMargin: int,            // highest step the resolver climbs
    hitBoxMarginX: int,       // horizontal offset of the collision box from the sprite
    animationInterval: int,   // ticks per animation frame, minus one
    recoilBar: int,           // ms of knock-back after a hit
    speed: real,              // walking speed, units per second
    rollSpeedModifier: real,  // roll speed relative to walking
    gravity: real,            // velocity lost per second while airborne
    recoilSpeed: real,        // knock-back speed, units per second, at full recoil
    ids: AnimIds,
    table: AnimTable)         // frame ranges and play-once flags of the animations

  predicate ValidConfig(c: Config)
  {
    && c.jumpHeight > 0.0 && c.jumpCooldown > 0 && c.rollTime > 0 && c.attackTime > 0
    && c.invincibleTime > 0 && c.upMargin > 0 && c.hitBoxMarginX >= 0
    && c.animationInterval >= 0 && c.recoilBar > 0
    && c.speed >= 0.0 && c.rollSpeedModifier >= 0.0 && c.gravity >= 0.0 && c.recoilSpeed >= 0.0
  }

  datatype Point = Point(x: int, y: int)

  /** The player's state. Timers are in milliseconds; `dead` is the source's `DEAD`. */
  datatype Player = Player(
    pos: Point,
    box: Rect,
    faceRight: bool,
    moveRight: bool,
    moveLeft: bool,
    yVelocity: real,
    onGround: bool,
    canJump: bool,
    jumpTimer: int,
    rolling: bool,
    rollCoolDown: int,
    attacking: bool,
    attackCoolDown: int,
    invincibleTimer: int,
    recoilTimer: int,
    recoilFaceRight: bool,
    health: int,
    dead: bool,
    anim: AnimState,
    effects: seq<Effect>)

  /**
   What the controller keeps true between calls: timers within their bounds, at
   most one of attacking and rolling, attacking exactly while its cooldown runs,
   no roll cooldown without a roll, and a frame inside the running animation.
   */
  predicate Inv(c: Config, p: Player)
  {
    TimersInv(c, p) && AnimInv(c, p.anim)
  }

  /** The timer and action-flag part of `Inv`. */
  predicate TimersInv(c: Config, p: Player)
  {
    && 0 <= p.jumpTimer <= c.jumpCooldown
    && 0 <= p.rollCoolDown <= c.rollTime
    && 0 <= p.attackCoolDown <= c.attackTime
    && 0 <= p.invincibleTimer <= c.invincibleTime
    && !(p.attacking && p.rolling)
    && (p.attacking <==> p.attackCoolDown > 0)
    && (!p.rolling ==> p.rollCoolDown == 0)
  }

  /** The animation part of `Inv`: the frame lies in the running animation and the counter is bounded. */
  predicate AnimInv(c: Config, a: AnimState)
  {
    FrameInRange(c.table, a) && 0 <= a.counter <= c.animationInterval + 1
  }

  /**
   The constructor. The vertical velocity (shadowed by a local of the same name),
   the recoil timer and direction and the death flag are not set by it and are
   parameters here. The animation table is the one `setupAnimations` fills in.
   The collision box starts at the sprite position itself, not
   offset by the hit-box margin.
   */
  function NewPlayer(c: Config, x: int, y: int, health: int,
                     yVelocity: real, recoilTimer: int, recoilFaceRight: bool, dead: bool): (p: Player)
    requires ValidConfig(c) && c.table == SetupAnimations()
    ensures Inv(c, p)
    ensures p.box == Rect(x, y, BoxWidth, BoxHeight) && p.pos == Point(x, y) && p.health == health
    ensures !p.rolling && !p.attacking && !p.canJump && !p.onGround && p.faceRight
    ensures p.anim == AnimState(0, 0, 0, c.ids.idleRight) && p.effects == []
    ensures p.jumpTimer == 0 && p.invincibleTimer == 0 && p.rollCoolDown == 0 && p.attackCoolDown == 0
    ensures !p.moveRight && !p.moveLeft
    ensures p.yVelocity == yVelocity && p.recoilTimer == recoilTimer
    ensures p.recoilFaceRight == recoilFaceRight && p.dead == dead
  {
    Player(
      pos := Point(x, y),
      box := Rect(x, y, BoxWidth, BoxHeight),
      faceRight := true, moveRight := false, moveLeft := false,
      yVelocity := yVelocity,
      onGround := false, canJump := false, jumpTimer := 0,
      rolling := false, rollCoolDown := 0,
      attacking := false, attackCoolDown := 0,
      invincibleTimer := 0, recoilTimer := recoilTimer, recoilFaceRight := recoilFaceRight,
      health := health, dead := dead,
      anim := AnimState(0, 0, 0, c.ids.idleRight),
      effects := [])
  }

  /** `move`: 0 asks to walk right, anything else to walk left; ignored while attacking or rolling. */
  function Move(c: Config, p: Player, dir: int): (r: Player)
    ensures p.attacking || p.rolling ==> r == p
    ensures !(p.attacking || p.rolling) ==>
              && r == p.(moveRight := r.moveRight, moveLeft := r.moveLeft, faceRight := r.faceRight)
              && r.faceRight == (dir == 0)
              && r.moveRight == (p.moveRight || dir == 0)
              && r.moveLeft == (p.moveLeft || dir != 0)
  {
    if p.attacking || p.rolling then p
    else if dir == 0 then p.(moveRight := true, faceRight := true)
    else p.(moveLeft := true, faceRight := false)
  }

  predicate JumpAllowed(p: Player)
  {
    p.canJump && p.jumpTimer == 0 && !p.rolling
  }

  /**
   `jump`: allowed only with `canJump`, no jump cooldown and no roll. A jump in
   the air is a wall jump: it plays the wall-jump animation and returns to the
   animation that was running.
   */
  function Jump(c: Config, p: Player): (r: Player)
    requires ValidConfig(c)
    ensures !JumpAllowed(p) ==> r == p
    ensures JumpAllowed(p) ==>
              && r == p.(yVelocity := r.yVelocity, onGround := false, canJump := false,
                         jumpTimer := r.jumpTimer, anim := r.anim)
              && r.yVelocity == c.jumpHeight && r.jumpTimer == c.jumpCooldown
              && !JumpAllowed(r)
    ensures JumpAllowed(p) && p.onGround ==> r.anim == p.anim
    ensures JumpAllowed(p) && !p.onGround ==>
              && r.anim.current == (if p.faceRight then c.ids.wallJumpRight else c.ids.wallJumpLeft)
              && r.anim.next == p.anim.current
    ensures JumpAllowed(p) && !p.onGround ==>
              SwitchedTo(c.table, p.anim, if p.faceRight then c.ids.wallJumpRight else c.ids.wallJumpLeft, r.anim)
  {
    if JumpAllowed(p) then
      var anim :=
        if !p.onGround then
          ChangeAnimation(c.table, p.anim.(next := p.anim.current),
                          if p.faceRight then c.ids.wallJumpRight else c.ids.wallJumpLeft)
        else p.anim;
      p.(anim := anim, yVelocity := c.jumpHeight, onGround := false, canJump := false,
         jumpTimer := c.jumpCooldown)
    else p
  }

  /**
   `roll`: ignored while attacking or rolling; otherwise starts the roll cooldown
   and an invincibility window, and plays the roll animation followed by idle.
   */
  function Roll(c: Config, p: Player): (r: Player)
    requires ValidConfig(c)
    ensures p.attacking || p.rolling ==> r == p
    ensures !(p.attacking || p.rolling) ==>
              && r == p.(rolling := true, rollCoolDown := c.rollTime,
                         invincibleTimer := c.invincibleTime, anim := r.anim)
              && r.anim.current == (if p.faceRight then c.ids.rollRight else c.ids.rollLeft)
              && r.anim.next == (if p.faceRight then c.ids.idleRight else c.ids.idleLeft)
    ensures !(p.attacking || p.rolling) ==>
              SwitchedTo(c.table, p.anim, if p.faceRight then c.ids.rollRight else c.ids.rollLeft, r.anim)
  {
    if p.attacking || p.rolling then p
    else
      var anim := ChangeAnimation(c.table, p.anim, if p.faceRight then c.ids.rollRight else c.ids.rollLeft);
      p.(rollCoolDown := c.rollTime, rolling := true,
         anim := anim.(next := if p.faceRight then c.ids.idleRight else c.ids.idleLeft),
         invincibleTimer := c.invincibleTime)
  }

  datatype Target = Enemy

  /** The message an attack sends to the attack sink. */
  datatype AttackMessage = AttackMessage(target: Target, damage: int, hitBox: Rect, recoilRight: bool)

  /** The outcome of `attack`: its return value, the new state and the message sent, if any. */
  datatype Attacked = Attacked(ok: bool, player: Player, message: Option<AttackMessage>)

  /** Left edge of the attack area: at the sprite when facing right, 36 to its left otherwise. */
  function AttackX(p: Player): int
  {
    if p.faceRight then p.pos.x else p.pos.x - AttackOffset
  }

  /** The attack animation in the facing direction, followed by idle. */
  function AttackAnimation(c: Config, p: Player): (a: AnimState)
    ensures a.current == (if p.faceRight then c.ids.attackRight else c.ids.attackLeft)
    ensures a.next == (if p.faceRight then c.ids.idleRight else c.ids.idleLeft)
    ensures a.counter == p.anim.counter
    ensures FrameInRange(c.table, p.anim) ==> FrameInRange(c.table, a)
    ensures SwitchedTo(c.table, p.anim, if p.faceRight then c.ids.attackRight else c.ids.attackLeft, a)
  {
    ChangeAnimation(c.table, p.anim, if p.faceRight then c.ids.attackRight else c.ids.attackLeft)
      .(next := if p.faceRight then c.ids.idleRight else c.ids.idleLeft)
  }

  /**
   `attack`: refused (false) while attacking or rolling. Otherwise it starts the
   attack cooldown, plays the attack animation followed by idle, spawns the hit
   effect and sends a one-damage message whose hit box is the effect's area.
   */
  function Attack(c: Config, p: Player): (r: Attacked)
    requires ValidConfig(c)
    ensures r.ok <==> !(p.attacking || p.rolling)
    ensures r.ok <==> r.message.Some?
    ensures !r.ok ==> r.player == p
    ensures r.ok ==> r.player == p.(attacking := true, attackCoolDown := c.attackTime,
                                    anim := r.player.anim, effects := r.player.effects)
    ensures r.ok ==>
              && r.player.anim.current == (if p.faceRight then c.ids.attackRight else c.ids.attackLeft)
              && r.player.anim.next == (if p.faceRight then c.ids.idleRight else c.ids.idleLeft)
              && |r.player.effects| == |p.effects| + 1
              && r.player.effects[..|p.effects|] == p.effects
    ensures r.ok ==> r.player.anim == AttackAnimation(c, p)
    ensures r.ok ==>
              var m := r.message.value;
              var e := r.player.effects[|p.effects|];
              && m.target == Enemy && m.damage == AttackDamage && m.recoilRight == p.faceRight
              && m.hitBox == Area(e)
              && m.hitBox.w == AttackSize && m.hitBox.h == AttackSize
              && m.hitBox.y == p.pos.y - AttackOffset
              && (if p.faceRight then m.hitBox.x == p.pos.x else m.hitBox.x + AttackOffset == p.pos.x)
  {
    if p.attacking || p.rolling then Attacked(false, p, None)
    else
      var area := Rect(AttackX(p), p.pos.y - AttackOffset, AttackSize, AttackSize);
      var effect := Effect(area.x, area.y, AttackEffectFrames, area.w, area.h, p.faceRight);
      var effects := p.effects + [effect];
      assert effects[..|p.effects|] == p.effects && effects[|p.effects|] == effect;
      var q := p.(attackCoolDown := c.attackTime, attacking := true, anim := AttackAnimation(c, p), effects := effects);
      Attacked(true, q, Some(AttackMessage(Enemy, AttackDamage, area, p.faceRight)))
  }

  /**
   `takeDamage`: ignored while the invincibility timer runs. Otherwise health drops
   by exactly `dmg` (it is never clamped), knock-back and a fresh invincibility
   window start, and reaching health 0 or less sets `dead` and plays the death
   animation followed by the death idle. Being dead already does not stop any of this.
   */
  function TakeDamage(c: Config, p: Player, dmg: int, right: bool): (r: Player)
    requires ValidConfig(c)
    ensures p.invincibleTimer != 0 ==> r == p
    ensures p.invincibleTimer == 0 ==>
              r == p.(health := r.health, recoilTimer := r.recoilTimer, recoilFaceRight := r.recoilFaceRight,
                      invincibleTimer := r.invincibleTimer, dead := r.dead, anim := r.anim)
    ensures p.invincibleTimer == 0 ==>
              && r.health == p.health - dmg && r.recoilTimer == c.recoilBar && r.recoilFaceRight == right
              && r.invincibleTimer == c.invincibleTime
              && (r.dead <==> p.dead || p.health - dmg <= 0)
    ensures p.invincibleTimer == 0 && p.health - dmg <= 0 ==>
              && r.anim.current == (if p.faceRight then c.ids.deathRight else c.ids.deathLeft)
              && r.anim.next == c.ids.deathIdle
    ensures p.invincibleTimer == 0 ==> r.anim == DamageAnimation(c, p.anim, p.faceRight, p.health - dmg)
    ensures p.invincibleTimer == 0 && p.health - dmg > 0 ==> r.anim == p.anim
  {
    if p.invincibleTimer == 0 then
      var health := p.health - dmg;
      var anim := DamageAnimation(c, p.anim, p.faceRight, health);
      var dead := p.dead || health <= 0;
      p.(health := health, recoilTimer := c.recoilBar, recoilFaceRight := right,
         dead := dead, anim := anim, invincibleTimer := c.invincibleTime)
    else p
  }

  /** The animation after a hit: the death animation, then the death idle, once health is gone. */
  function DamageAnimation(c: Config, a: AnimState, faceRight: bool, health: int): (r: AnimState)
    ensures health > 0 ==> r == a
    ensures health <= 0 ==> r.current == (if faceRight then c.ids.deathRight else c.ids.deathLeft)
                            && r.next == c.ids.deathIdle
    ensures health <= 0 ==> SwitchedTo(c.table, a, if faceRight then c.ids.deathRight else c.ids.deathLeft, r)
    ensures FrameInRange(c.table, a) ==> FrameInRange(c.table, r)
    ensures r.counter == a.counter
  {
    if health <= 0 then
      ChangeAnimation(c.table, a, if faceRight then c.ids.deathRight else c.ids.deathLeft).(next := c.ids.deathIdle)
    else a
  }
}

=== FILE: effects.dfy ===
/**
 The player's transient visual effects and the end-of-tick pruning of those that
 reported themselves finished. An effect's own animation and lifetime are not
 modelled: whether it asked to be removed this tick is an input.
 */
module Effects {

  import opened Geometry

  /** An effect as spawned by the player: position, frame count, size and facing. */
  datatype Effect = Effect(x: int, y: int, frames: int, w: int, h: int, faceRight: bool)

  function Area(e: Effect): Rect
  {
    Rect(e.x, e.y, e.w, e.h)
  }

  /** The effects whose removal flag is not set, in their original order. */
  function Kept(effects: seq<Effect>, expired: seq<bool>): (r: seq<Effect>)
    requires |expired| == |effects|
    ensures |r| <= |effects|
    decreases |effects|
  {
    if |effects| == 0 then []
    else (if expired[0] then [] else [effects[0]]) + Kept(effects[1..], expired[1..])
  }

  /** Kept keeps exactly the unflagged effects: all of them, and nothing else. */
  lemma {:induction false} KeptIsFilter(effects: seq<Effect>, expired: seq<bool>)
    requires |expired| == |effects|
    ensures forall i :: 0 <= i < |effects| && !expired[i] ==> effects[i] in Kept(effects, expired)
    ensures forall e :: e in Kept(effects, expired) ==>
              exists i :: 0 <= i < |effects| && !expired[i] && effects[i] == e
    ensures (forall i :: 0 <= i < |effects| ==> !expired[i]) ==> Kept(effects, expired) == effects
    ensures (forall i :: 0 <= i < |effects| ==> expired[i]) ==> Kept(effects, expired) == []
    decreases |effects|
  {
    if |effects| > 0 {
      KeptIsFilter(effects[1..], expired[1..]);
      assert forall i :: 1 <= i < |effects| ==>
        effects[i] == effects[1..][i - 1] && expired[i] == expired[1..][i - 1];
      assert effects == [effects[0]] + effects[1..];
    }
  }

  lemma KeptStep(effects: seq<Effect>, expired: seq<bool>, i: int)
    requires |expired| == |effects| && 0 <= i < |effects|
    ensures Kept(effects[i..], expired[i..])
            == (if expired[i] then [] else [effects[i]]) + Kept(effects[i + 1..], expired[i + 1..])
  {
    assert effects[i..][1..] == effects[i + 1..];
    assert expired[i..][1..] == expired[i + 1..];
  }

  /** Erasing the element at index |front| of front + [x] + back. */
  lemma EraseMiddle(front: seq<Effect>, x: Effect, back: seq<Effect>)
    ensures var s := front + [x] + back; s[..|front|] + s[|front| + 1..] == front + back
  {
    var s := front + [x] + back;
    assert s[..|front|] == front;
    assert s[|front| + 1..] == back;
  }

  /**
   The pruning loop of the player's update: the flagged indices, collected in
   increasing order, are erased from the highest down, so that each erasure leaves
   the indices still to be erased valid.
   */
  method PruneEffects(effects: seq<Effect>, expired: seq<bool>) returns (r: seq<Effect>)
    requires |expired| == |effects|
    ensures r == Kept(effects, expired)
  {
    r := effects;
    var i := |effects|;
    assert effects[..i] + Kept(effects[i..], expired[i..]) == effects;
    while i > 0
      invariant 0 <= i <= |effects|
      invariant r == effects[..i] + Kept(effects[i..], expired[i..])
      decreases i
    {
      i := i - 1;
      var front := effects[..i];
      var back := Kept(effects[i + 1..], expired[i + 1..]);
      KeptStep(effects, expired, i);
      assert effects[..i + 1] == front + [effects[i]];
      assert r == front + [effects[i]] + back;
      if expired[i] {
        EraseMiddle(front, effects[i], back);
        r := r[..i] + r[i + 1..];
      }
    }
    assert effects[0..] == effects && expired[0..] == expired;
  }
}

=== FILE: geometry.dfy ===
/**
 Integer axis-aligned rectangles and the overlap test the collision code relies on.
 Screen coordinates: x grows to the right, y grows downwards.
 */
module Geometry {

  /** An axis-aligned rectangle with top-left corner (x, y). */
  datatype Rect = Rect(x: int, y: int, w: int, h: int)

  /**
   Strict overlap of two rectangles on both axes: rectangles that only share an
   edge do not collide. This is the assumed meaning of the engine's `isColliding`.
   */
  predicate Colliding(a: Rect, b: Rect)
  {
    && a.x < b.x + b.w
    && b.x < a.x + a.w
    && a.y < b.y + b.h
    && b.y < a.y + a.h
  }

  /** The rectangle moved by (dx, dy), same size. */
  function Shifted(r: Rect, dx: int, dy: int): Rect
  {
    Rect(r.x + dx, r.y + dy, r.w, r.h)
  }

  /** Scan of a collision map that stops at the first obstacle overlapping `probe`. */
  function HitsAny(probe: Rect, obstacles: seq<Rect>): (hit: bool)
    ensures hit <==> exists i :: 0 <= i < |obstacles| && Colliding(probe, obstacles[i])
  {
    if |obstacles| == 0 then false
    else if Colliding(probe, obstacles[0]) then true
    else
      var rest := HitsAny(probe, obstacles[1..]);
      assert forall i :: 1 <= i < |obstacles| ==> obstacles[i] == obstacles[1..][i - 1];
      rest
  }
}

=== FILE: properties.dfy ===
/**
 Properties that relate several calls of the controller: the invariant every
 action and every tick preserves, the exclusion between rolling and attacking,
 idempotent jumps and hits, what happens after death, and how long a walk
 intent lasts.
 */
module Properties {

  import opened Geometry
  import opened Animation
  import opened Effects
  import opened Controller
  import opened Tick

  lemma MoveKeepsInv(c: Config, p: Player, dir: int)
    ensures Inv(c, p) ==> Inv(c, Move(c, p, dir))
  {
  }

  lemma JumpKeepsInv(c: Config, p: Player)
    requires ValidConfig(c)
    ensures Inv(c, p) ==> Inv(c, Jump(c, p))
  {
  }

  lemma RollKeepsInv(c: Config, p: Player)
    requires ValidConfig(c)
    ensures Inv(c, p) ==> Inv(c, Roll(c, p))
  {
  }

  lemma AttackKeepsInv(c: Config, p: Player)
    requires ValidConfig(c)
    ensures Inv(c, p) ==> Inv(c, Attack(c, p).player)
  {
  }

  lemma TakeDamageKeepsInv(c: Config, p: Player, dmg: int, right: bool)
    requires ValidConfig(c)
    ensures Inv(c, p) ==> Inv(c, TakeDamage(c, p, dmg, right))
  {
  }

  /** The animation part of the invariant survives the animation choice and the frame advance of a tick. */
  lemma SettleThenAdvanceKeepsAnimInv(c: Config, q: Player, obstacles: seq<Rect>)
    ensures AnimInv(c, q.anim) ==>
              AnimInv(c, UpdateAnimation(c.table, Settle(c, q, obstacles).anim, c.animationInterval))
  {
  }

  /** A tick keeps the controller's invariant. */
  lemma UpdateKeepsInv(c: Config, p: Player, obstacles: seq<Rect>, delta: nat, expired: seq<bool>)
    requires ValidConfig(c)
    requires |expired| == |p.effects|
    ensures Inv(c, p) ==> Inv(c, Update(c, p, obstacles, delta, expired))
  {
    var r := Update(c, p, obstacles, delta, expired);
    var q := TickTimers(p, delta);
    var moved := HorizontalBox(c, q, obstacles, delta, p.rolling);
    var v := FallVelocity(c, q, moved, obstacles, delta);
    var box := RecoilBox(c, VerticalBox(c, moved, v, obstacles), p.recoilTimer, p.recoilFaceRight, obstacles, delta);
    var q' := q.(box := box, pos := Point(box.x - c.hitBoxMarginX, box.y), yVelocity := v,
                 recoilTimer := ClampedCountdown(p.recoilTimer, delta));
    assert q'.anim == p.anim;
    SettleThenAdvanceKeepsAnimInv(c, q', obstacles);
    assert r.anim == UpdateAnimation(c.table, Settle(c, q', obstacles).anim, c.animationInterval);
  }

  /** Rolling blocks attacking: an attack right after a roll is refused and changes nothing. */
  lemma NoAttackDuringRoll(c: Config, p: Player)
    requires ValidConfig(c)
    ensures !Attack(c, Roll(c, p)).ok && Attack(c, Roll(c, p)).player == Roll(c, p)
  {
  }

  /** Attacking blocks rolling: a roll right after an attack is ignored. */
  lemma NoRollDuringAttack(c: Config, p: Player)
    requires ValidConfig(c)
    ensures Roll(c, Attack(c, p).player) == Attack(c, p).player
  {
  }

  /** A second jump in the same state is ignored: the first one spends `canJump`. */
  lemma JumpIsIdempotent(c: Config, p: Player)
    requires ValidConfig(c)
    ensures Jump(c, Jump(c, p)) == Jump(c, p)
  {
  }

  /** A second hit before any tick is ignored: the first one starts the invincibility window. */
  lemma SecondHitIgnored(c: Config, p: Player, dmg1: int, right1: bool, dmg2: int, right2: bool)
    requires ValidConfig(c)
    ensures TakeDamage(c, TakeDamage(c, p, dmg1, right1), dmg2, right2) == TakeDamage(c, p, dmg1, right1)
  {
  }

  /**
   Death is not terminal: a dead player whose invincibility has run out takes the
   full damage again, health going below zero, and the death animation restarts.
   */
  lemma DeadPlayerStillTakesDamage(c: Config, p: Player, dmg: int, right: bool)
    requires ValidConfig(c)
    requires p.dead && p.invincibleTimer == 0
    ensures var r := TakeDamage(c, p, dmg, right);
            && r.health == p.health - dmg && r.dead
            && r.invincibleTimer == c.invincibleTime && r.recoilTimer == c.recoilBar
            && (r.health <= 0 ==> r.anim.next == c.ids.deathIdle)
  {
  }

  /**
   The whole sequence from one hit point: a hit of 1 kills, a hit of 5 straight
   after is ignored, and once a tick has drained the invincibility window the same
   hit of 5 lands and takes health to -5.
   */
  lemma HealthIsNeverClamped(c: Config, p: Player, obstacles: seq<Rect>, delta: nat, expired: seq<bool>)
    requires ValidConfig(c)
    requires p.health == 1 && p.invincibleTimer == 0 && delta >= c.invincibleTime
    requires |expired| == |p.effects|
    ensures var hit := TakeDamage(c, p, 1, true);
            && hit.health == 0 && hit.dead
            && TakeDamage(c, hit, 5, true) == hit
            && var later := Update(c, hit, obstacles, delta, expired);
               && later.invincibleTimer == 0
               && TakeDamage(c, later, 5, true).health == -5
               && TakeDamage(c, later, 5, true).dead
  {
  }

  /**
   A walk intent lasts one tick: after the tick that consumes it, and with no roll
   and no knock-back, the next tick leaves the player where it is horizontally.
   */
  lemma WalkIntentLastsOneTick(c: Config, p: Player, dir: int, obstacles: seq<Rect>, delta: nat,
                               expired1: seq<bool>, expired2: seq<bool>)
    requires ValidConfig(c)
    requires !p.rolling && p.recoilTimer <= 0
    requires |expired1| == |p.effects| && |expired2| == |Kept(p.effects, expired1)|
    ensures var q := Update(c, Move(c, p, dir), obstacles, delta, expired1);
            Update(c, q, obstacles, delta, expired2).box.x == q.box.x
  {
  }

  /**
   The constructor places the collision box at the sprite position, while every
   tick places the sprite `hitBoxMarginX` to the left of the box: with a positive
   margin the sprite shifts on the first tick.
   */
  lemma SpriteOffsetChangesOnFirstTick(c: Config, x: int, y: int, health: int, yVelocity: real,
                                       recoilTimer: int, recoilRight: bool, dead: bool,
                                       obstacles: seq<Rect>, delta: nat)
    requires ValidConfig(c) && c.table == SetupAnimations()
    ensures var p := NewPlayer(c, x, y, health, yVelocity, recoilTimer, recoilRight, dead);
            var r := Update(c, p, obstacles, delta, []);
            && p.box.x - p.pos.x == 0
            && r.box.x - r.pos.x == c.hitBoxMarginX
  {
  }
}

=== FILE: resolver.dfy ===
/**
 The one-axis collision resolver of the player (`moveHelp`) and the one-unit
 adjacency probes (`detectOnGround`, ceiling and wall checks).
 */
module Resolver {

  import opened Geometry

  /** Directions of `moveHelp`; the source encodes them as 0 Up, 1 Right, 2 Down, 3 Left. */
  datatype Dir = Up | Right | Down | Left

  /** The box moved by `amount` along `dir` (Up decreases y). */
  function Displaced(box: Rect, dir: Dir, amount: int): Rect
  {
    match dir
    case Up => box.(y := box.y - amount)
    case Right => box.(x := box.x + amount)
    case Down => box.(y := box.y + amount)
    case Left => box.(x := box.x - amount)
  }

  /**
   The step-up scan: starting from a probe clear of `o`, move it down one unit at
   a time until it first overlaps `o`. `limit` is a height known to overlap `o`.
   */
  function FirstBlockedY(o: Rect, probe: Rect, limit: int): (y: int)
    requires probe.y <= limit
    requires Colliding(probe.(y := limit), o)
    ensures probe.y <= y <= limit
    ensures Colliding(probe.(y := y), o)
    ensures forall k :: probe.y <= k < y ==> !Colliding(Rect(probe.x, k, probe.w, probe.h), o)
    decreases limit - probe.y
  {
    if Colliding(probe, o) then probe.y
    else FirstBlockedY(o, probe.(y := probe.y + 1), limit)
  }

  /** How far `r` still has to back off from `o`; 0 once it is clear. */
  function Depth(r: Rect, dir: Dir, o: Rect): nat
  {
    if !Colliding(r, o) then 0
    else
      match dir
      case Up => o.y + o.h - r.y
      case Right => r.x + r.w - o.x
      case Down => r.y + r.h - o.y
      case Left => o.x + o.w - r.x
  }

  /**
   The inner `while (isColliding(newRect, *obj))` loop of `moveHelp` for one obstacle:
   vertical moves back off one unit at a time; horizontal moves first try to step
   up by at most `margin`, and back off horizontally only when the raised probe
   is blocked too.
   */
  function BackOff(r: Rect, dir: Dir, o: Rect, margin: int): (s: Rect)
    requires margin >= 0
    ensures !Colliding(s, o)
    ensures s.w == r.w && s.h == r.h
    ensures !Colliding(r, o) ==> s == r
    // vertical moves keep x and back off in the direction opposite to the move
    ensures dir.Up? ==> s.x == r.x && r.y <= s.y
    ensures dir.Down? ==> s.x == r.x && s.y <= r.y
    // horizontal moves back off in x and rise by at most the step-up margin
    ensures dir.Right? ==> s.x <= r.x && r.y - margin <= s.y <= r.y
    ensures dir.Left? ==> r.x <= s.x && r.y - margin <= s.y <= r.y
    decreases Depth(r, dir, o)
  {
    if !Colliding(r, o) then r
    else
      match dir
      case Up => BackOff(r.(y := r.y + 1), dir, o, margin)
      case Down => BackOff(r.(y := r.y - 1), dir, o, margin)
      case Right =>
        var probe := r.(y := r.y - margin);
        if !Colliding(probe, o) then
          var top := FirstBlockedY(o, probe, r.y);
          BackOff(r.(y := top - 1), dir, o, margin)
        else
          BackOff(r.(x := r.x - 1), dir, o, margin)
      case Left =>
        var probe := r.(y := r.y - margin);
        if !Colliding(probe, o) then
          var top := FirstBlockedY(o, probe, r.y);
          BackOff(r.(y := top - 1), dir, o, margin)
        else
          BackOff(r.(x := r.x + 1), dir, o, margin)
  }

  /**
   A vertical `BackOff` stops at the first clear height: every height it passes
   over overlaps the obstacle.
   */
  lemma {:induction false} VerticalBackOffStopsAtFirstClear(r: Rect, dir: Dir, o: Rect, margin: int)
    requires margin >= 0 && (dir.Up? || dir.Down?)
    ensures var s := BackOff(r, dir, o, margin);
            && (dir.Up? ==> forall k :: r.y <= k < s.y ==> Colliding(Rect(r.x, k, r.w, r.h), o))
            && (dir.Down? ==> forall k :: s.y < k <= r.y ==> Colliding(Rect(r.x, k, r.w, r.h), o))
    decreases Depth(r, dir, o)
  {
    if Colliding(r, o) {
      if dir.Up? {
        VerticalBackOffStopsAtFirstClear(r.(y := r.y + 1), dir, o, margin);
      } else {
        VerticalBackOffStopsAtFirstClear(r.(y := r.y - 1), dir, o, margin);
      }
    }
  }

  /**
   A horizontal `BackOff` stops at the first clear column: every column it passes
   over overlaps the obstacle, and a step-up lands the box directly on top of it.
   */
  lemma {:induction false} HorizontalBackOffStopsAtFirstClear(r: Rect, dir: Dir, o: Rect, margin: int)
    requires margin >= 0 && (dir.Right? || dir.Left?)
    ensures var s := BackOff(r, dir, o, margin);
            && (dir.Right? ==> forall k :: s.x < k <= r.x ==> Colliding(Rect(k, r.y, r.w, r.h), o))
            && (dir.Left? ==> forall k :: r.x <= k < s.x ==> Colliding(Rect(k, r.y, r.w, r.h), o))
            && (s.y < r.y ==> Colliding(Rect(s.x, r.y, r.w, r.h), o) && Colliding(Shifted(s, 0, 1), o))
    decreases Depth(r, dir, o)
  {
    if Colliding(r, o) && Colliding(r.(y := r.y - margin), o) {
      if dir.Right? {
        HorizontalBackOffStopsAtFirstClear(r.(x := r.x - 1), dir, o, margin);
      } else {
        HorizontalBackOffStopsAtFirstClear(r.(x := r.x + 1), dir, o, margin);
      }
    }
  }

  /**
   A horizontal `BackOff` steps up only in the starting column: once the raised box
   is blocked there, it stays blocked in every column the box backs into, because it
   overlaps the obstacle's rows. So x and y never both change.
   */
  lemma {:induction false} StepUpOnlyInStartColumn(r: Rect, dir: Dir, o: Rect, margin: int)
    requires margin >= 0 && (dir.Right? || dir.Left?)
    ensures var s := BackOff(r, dir, o, margin);
            && (Colliding(r.(y := r.y - margin), o) ==> s.y == r.y)
            && (s.y < r.y ==> s.x == r.x)
    decreases Depth(r, dir, o)
  {
    if Colliding(r, o) && Colliding(r.(y := r.y - margin), o) {
      if dir.Right? {
        StepUpOnlyInStartColumn(r.(x := r.x - 1), dir, o, margin);
      } else {
        StepUpOnlyInStartColumn(r.(x := r.x + 1), dir, o, margin);
      }
    }
  }

  /**
   The `for (Shape* obj : *collisionMap)` loop of `moveHelp`: obstacles are cleared
   one after another, in map order, starting from the displaced box.
   */
  function ResolveAll(r: Rect, dir: Dir, obstacles: seq<Rect>, margin: int): (s: Rect)
    requires margin >= 0
    ensures s.w == r.w && s.h == r.h
    ensures |obstacles| > 0 ==> !Colliding(s, obstacles[|obstacles| - 1])
    ensures (forall i :: 0 <= i < |obstacles| ==> !Colliding(r, obstacles[i])) ==> s == r
    ensures dir.Up? ==> s.x == r.x && r.y <= s.y
    ensures dir.Down? ==> s.x == r.x && s.y <= r.y
    ensures dir.Right? ==> s.x <= r.x && s.y <= r.y
    ensures dir.Left? ==> r.x <= s.x && s.y <= r.y
    decreases |obstacles|
  {
    if |obstacles| == 0 then r
    else
      var before := obstacles[..|obstacles| - 1];
      assert forall i :: 0 <= i < |before| ==> before[i] == obstacles[i];
      BackOff(ResolveAll(r, dir, before, margin), dir, obstacles[|obstacles| - 1], margin)
  }

  /**
   The box computed by `moveHelp`: displaced by `amount` along `dir`, then backed
   off every obstacle in turn.
   */
  function Resolved(box: Rect, dir: Dir, amount: int, obstacles: seq<Rect>, margin: int): (s: Rect)
    requires margin >= 0
    ensures s.w == box.w && s.h == box.h
    ensures |obstacles| > 0 ==> !Colliding(s, obstacles[|obstacles| - 1])
    ensures (forall i :: 0 <= i < |obstacles| ==> !Colliding(Displaced(box, dir, amount), obstacles[i])) ==>
              s == Displaced(box, dir, amount)
    ensures (dir.Up? || dir.Down?) ==> s.x == box.x
  {
    ResolveAll(Displaced(box, dir, amount), dir, obstacles, margin)
  }

  /** `detectOnGround`: does the box moved one unit down overlap any obstacle? */
  function DetectOnGround(box: Rect, obstacles: seq<Rect>): (grounded: bool)
    ensures grounded <==> exists i :: 0 <= i < |obstacles| && Colliding(Shifted(box, 0, 1), obstacles[i])
  {
    HitsAny(Shifted(box, 0, 1), obstacles)
  }

  /** The test of `updateYVelocityIfHittingCeiling`: the box moved one unit up overlaps an obstacle. */
  function HittingCeiling(box: Rect, obstacles: seq<Rect>): (hit: bool)
    ensures hit <==> exists i :: 0 <= i < |obstacles| && Colliding(Shifted(box, 0, -1), obstacles[i])
  {
    HitsAny(Shifted(box, 0, -1), obstacles)
  }

  /** The box touches `o` when moved one unit right or one unit left. */
  predicate AgainstSide(box: Rect, o: Rect)
  {
    Colliding(Shifted(box, 1, 0), o) || Colliding(Shifted(box, -1, 0), o)
  }

  /**
   The scan of `updateCanJumpIfHittingWall`: for each obstacle in turn, test the
   box moved one unit right, then one unit left; stop at the first hit.
   */
  function BesideWall(box: Rect, obstacles: seq<Rect>): (hit: bool)
    ensures hit <==> exists i :: 0 <= i < |obstacles| && AgainstSide(box, obstacles[i])
  {
    if |obstacles| == 0 then false
    else if Colliding(Shifted(box, 1, 0), obstacles[0]) then true
    else if Colliding(Shifted(box, -1, 0), obstacles[0]) then true
    else
      var rest := BesideWall(box, obstacles[1..]);
      assert forall i :: 1 <= i < |obstacles| ==> obstacles[i] == obstacles[1..][i - 1];
      rest
  }

  /** When the loop for obstacle `i` exits, the box is clear of that obstacle. */
  lemma EachObstacleClearedInTurn(r: Rect, dir: Dir, obstacles: seq<Rect>, margin: int, i: int)
    requires margin >= 0 && 0 <= i < |obstacles|
    ensures !Colliding(ResolveAll(r, dir, obstacles[..i + 1], margin), obstacles[i])
  {
    assert obstacles[..i + 1][i] == obstacles[i];
  }

  /**
   An upward move that starts clear of every obstacle ends between the target
   height and the start: backing off never overshoots the starting position.
   */
  lemma {:induction false} UpEndsBetweenTargetAndStart(start: Rect, amount: int, obstacles: seq<Rect>, margin: int)
    requires margin >= 0 && amount >= 0
    ensures (forall i :: 0 <= i < |obstacles| ==> !Colliding(start, obstacles[i])) ==>
              var s := ResolveAll(Displaced(start, Up, amount), Up, obstacles, margin);
              s.x == start.x && start.y - amount <= s.y <= start.y
    decreases |obstacles|
  {
    if |obstacles| > 0 {
      var before := obstacles[..|obstacles| - 1];
      assert forall i :: 0 <= i < |before| ==> before[i] == obstacles[i];
      UpEndsBetweenTargetAndStart(start, amount, before, margin);
      VerticalBackOffStopsAtFirstClear(ResolveAll(Displaced(start, Up, amount), Up, before, margin),
                                       Up, obstacles[|obstacles| - 1], margin);
    }
  }

  /** The mirror image for downward moves. */
  lemma {:induction false} DownEndsBetweenStartAndTarget(start: Rect, amount: int, obstacles: seq<Rect>, margin: int)
    requires margin >= 0 && amount >= 0
    ensures (forall i :: 0 <= i < |obstacles| ==> !Colliding(start, obstacles[i])) ==>
              var s := ResolveAll(Displaced(start, Down, amount), Down, obstacles, margin);
              s.x == start.x && start.y <= s.y <= start.y + amount
    decreases |obstacles|
  {
    if |obstacles| > 0 {
      var before := obstacles[..|obstacles| - 1];
      assert forall i :: 0 <= i < |before| ==> before[i] == obstacles[i];
      DownEndsBetweenStartAndTarget(start, amount, before, margin);
      VerticalBackOffStopsAtFirstClear(ResolveAll(Displaced(start, Down, amount), Down, before, margin),
                                       Down, obstacles[|obstacles| - 1], margin);
    }
  }

  /**
   Obstacles are cleared one at a time, so backing off from a later obstacle can
   push the box into an earlier one: a 1x1 box falling onto a 2-unit block ends
   inside the 1-unit block just above it.
   */
  lemma LaterObstacleCanPushIntoEarlier()
    ensures var obstacles := [Rect(0, 3, 1, 1), Rect(0, 4, 1, 2)];
            var s := ResolveAll(Displaced(Rect(0, 0, 1, 1), Down, 5), Down, obstacles, 0);
            s == Rect(0, 3, 1, 1) && Colliding(s, obstacles[0]) && !Colliding(s, obstacles[1])
  {
    var obstacles := [Rect(0, 3, 1, 1), Rect(0, 4, 1, 2)];
    var r := Rect(0, 5, 1, 1);
    assert obstacles[..1] == [Rect(0, 3, 1, 1)];
    assert obstacles[..1][..0] == [];
    assert ResolveAll(r, Down, obstacles[..1], 0) == r;
    assert BackOff(Rect(0, 3, 1, 1), Down, obstacles[1], 0) == Rect(0, 3, 1, 1);
    assert BackOff(Rect(0, 4, 1, 1), Down, obstacles[1], 0) == Rect(0, 3, 1, 1);
    assert BackOff(r, Down, obstacles[1], 0) == Rect(0, 3, 1, 1);
  }

  /**
   Step-up: a 10x10 box moving right by 5 into a 1-unit-high ledge, with a step-up
   margin of 4, is raised onto the ledge instead of being blocked.
   */
  lemma StepsOntoLowLedge()
    ensures ResolveAll(Displaced(Rect(0, 0, 10, 10), Right, 5), Right, [Rect(12, 9, 20, 1)], 4)
            == Rect(5, -1, 10, 10)
  {
    var o := Rect(12, 9, 20, 1);
    var r := Rect(5, 0, 10, 10);
    var probe := Rect(5, -4, 10, 10);
    assert FirstBlockedY(o, Rect(5, 0, 10, 10), 0) == 0;
    assert FirstBlockedY(o, Rect(5, -1, 10, 10), 0) == 0;
    assert FirstBlockedY(o, Rect(5, -2, 10, 10), 0) == 0;
    assert FirstBlockedY(o, Rect(5, -3, 10, 10), 0) == 0;
    assert FirstBlockedY(o, probe, 0) == 0;
    assert BackOff(r, Right, o, 4) == Rect(5, -1, 10, 10);
    assert [o][..0] == [];
  }
}

=== FILE: tick.dfy ===
/**
 The player's per-tick `update`: timers, horizontal movement, ceiling check,
 gravity and vertical movement, knock-back, ground and wall probes with the
 choice of animation, effect pruning and the animation frame advance, in the
 source's order. `delta` is the elapsed time in whole milliseconds.
 */
module Tick {

  import opened Geometry
  import opened Resolver
  import opened Animation
  import opened Effects
  import opened Controller

  /** Bound on the vertical speed in either direction. */
  const MaxVerticalSpeed := 20.0

  /** C++'s float-to-int conversion: truncation toward zero. */
  function TruncToInt(v: real): (n: int)
    ensures v >= 0.0 ==> 0 <= n && n as real <= v < n as real + 1.0
    ensures v < 0.0 ==> n <= 0 && n as real - 1.0 < v <= n as real
  {
    if v >= 0.0 then v.Floor else -((-v).Floor)
  }

  function Clamp(v: real, lo: real, hi: real): (r: real)
    requires lo <= hi
    ensures lo <= r <= hi
    ensures lo <= v <= hi ==> r == v
    ensures v <= hi ==> r <= (if lo <= v then v else lo)
  {
    if v < lo then lo else if v > hi then hi else v
  }

  /**
   The invincibility and recoil countdowns, and the reference for the other two:
   a running countdown loses `delta` and is clamped at zero, reaching zero exactly
   when `delta` covers what is left; a stopped one stays put.
   */
  function ClampedCountdown(t: int, delta: nat): (r: int)
    ensures t >= 0 ==> 0 <= r <= t
    ensures t > 0 ==> (r == 0 <==> t <= delta)
    ensures t > delta ==> r == t - delta
    ensures t <= 0 ==> r == t
  {
    if t > 0 then
      var t' := t - delta;
      if t' < 0 then 0 else t'
    else t
  }

  /** The jump and attack countdowns: stop at zero once `delta` covers what is left. */
  function CoolDownCountdown(t: int, delta: nat): (r: int)
    ensures r == ClampedCountdown(t, delta)
  {
    if t > 0 then
      if t <= delta then 0 else t - delta
    else t
  }

  /** The roll countdown, run only while rolling: zero when strictly below `delta`. */
  function RollCountdown(t: int, delta: nat): (r: int)
    ensures t >= 0 ==> r == ClampedCountdown(t, delta)
  {
    if t < delta then 0 else t - delta
  }

  /**
   The timer part of `update`: invincibility, jump, attack and roll countdowns.
   Attacking ends when its cooldown runs out; rolling ends only when the roll
   cooldown is strictly below `delta`, so a roll whose cooldown equals `delta`
   survives one more tick with cooldown 0.
   */
  function TickTimers(p: Player, delta: nat): (r: Player)
    ensures r == p.(invincibleTimer := r.invincibleTimer, jumpTimer := r.jumpTimer,
                    attackCoolDown := r.attackCoolDown, attacking := r.attacking,
                    rollCoolDown := r.rollCoolDown, rolling := r.rolling)
    ensures r.invincibleTimer == ClampedCountdown(p.invincibleTimer, delta)
    ensures r.jumpTimer == ClampedCountdown(p.jumpTimer, delta)
    ensures r.attackCoolDown == ClampedCountdown(p.attackCoolDown, delta)
    ensures p.rolling && p.rollCoolDown >= 0 ==> r.rollCoolDown == ClampedCountdown(p.rollCoolDown, delta)
    ensures !p.rolling ==> r.rollCoolDown == p.rollCoolDown
    ensures r.attacking <==> p.attacking && !(0 < p.attackCoolDown <= delta)
    ensures r.rolling <==> p.rolling && delta <= p.rollCoolDown
  {
    var attackEnds := 0 < p.attackCoolDown <= delta;
    var rollEnds := p.rolling && p.rollCoolDown < delta;
    var invincible := ClampedCountdown(p.invincibleTimer, delta);
    var jump := CoolDownCountdown(p.jumpTimer, delta);
    var attack := CoolDownCountdown(p.attackCoolDown, delta);
    var roll := if p.rolling then RollCountdown(p.rollCoolDown, delta) else p.rollCoolDown;
    p.(invincibleTimer := invincible, jumpTimer := jump, attackCoolDown := attack,
       attacking := p.attacking && !attackEnds, rollCoolDown := roll, rolling := p.rolling && !rollEnds)
  }

  /** The timer part of the controller's invariant survives the countdowns. */
  lemma TickKeepsTimersInv(c: Config, p: Player, delta: nat)
    ensures TimersInv(c, p) ==> TimersInv(c, TickTimers(p, delta))
  {
  }

  /** Walking distance for `delta` ms at `speed` units per second. */
  function WalkAmount(c: Config, delta: nat): int
  {
    TruncToInt(c.speed * (delta as real) / 1000.0)
  }

  /** Rolling distance for `delta` ms. */
  function RollAmount(c: Config, delta: nat): int
  {
    TruncToInt(c.speed * (delta as real) / 1000.0 * c.rollSpeedModifier)
  }

  function Facing(faceRight: bool): Dir
  {
    if faceRight then Right else Left
  }

  /**
   Horizontal movement of the collision box: a roll (judged by the flag before the
   timers ran) moves it the roll distance in the facing direction; otherwise each
   walk intent moves it the walking distance, right first.
   */
  function HorizontalBox(c: Config, p: Player, obstacles: seq<Rect>, delta: nat, wasRolling: bool): (b: Rect)
    requires ValidConfig(c)
    ensures b.w == p.box.w && b.h == p.box.h
    ensures !wasRolling && !p.moveRight && !p.moveLeft ==> b == p.box
    ensures wasRolling || p.moveRight || p.moveLeft ==> b.y <= p.box.y
  {
    if wasRolling then
      Resolved(p.box, Facing(p.faceRight), RollAmount(c, delta), obstacles, c.upMargin)
    else
      var b := if p.moveRight then Resolved(p.box, Right, WalkAmount(c, delta), obstacles, c.upMargin) else p.box;
      if p.moveLeft then Resolved(b, Left, WalkAmount(c, delta), obstacles, c.upMargin) else b
  }

  /**
   With nothing in the way, a roll covers the full roll distance in the facing
   direction, and a walk to the right or to the left the full walking distance.
   */
  lemma HorizontalBoxInFreeSpace(c: Config, p: Player, obstacles: seq<Rect>, delta: nat, wasRolling: bool)
    requires ValidConfig(c)
    ensures wasRolling && (forall i :: 0 <= i < |obstacles| ==>
                             !Colliding(Displaced(p.box, Facing(p.faceRight), RollAmount(c, delta)), obstacles[i])) ==>
              HorizontalBox(c, p, obstacles, delta, wasRolling) == Displaced(p.box, Facing(p.faceRight), RollAmount(c, delta))
    ensures !wasRolling && p.moveRight && !p.moveLeft
            && (forall i :: 0 <= i < |obstacles| ==>
                  !Colliding(Displaced(p.box, Right, WalkAmount(c, delta)), obstacles[i])) ==>
              HorizontalBox(c, p, obstacles, delta, wasRolling) == Displaced(p.box, Right, WalkAmount(c, delta))
    ensures !wasRolling && !p.moveRight && p.moveLeft
            && (forall i :: 0 <= i < |obstacles| ==>
                  !Colliding(Displaced(p.box, Left, WalkAmount(c, delta)), obstacles[i])) ==>
              HorizontalBox(c, p, obstacles, delta, wasRolling) == Displaced(p.box, Left, WalkAmount(c, delta))
  {
  }

  /** `updateYVelocityIfHittingCeiling`: touching a ceiling turns the velocity into a small fall. */
  function CeilingCheck(v: real, box: Rect, obstacles: seq<Rect>): (r: real)
    ensures (exists i :: 0 <= i < |obstacles| && Colliding(Shifted(box, 0, -1), obstacles[i])) ==> r == -1.0
    ensures !(exists i :: 0 <= i < |obstacles| && Colliding(Shifted(box, 0, -1), obstacles[i])) ==> r == v
  {
    if HittingCeiling(box, obstacles) then -1.0 else v
  }

  /**
   The new vertical velocity: ceiling check on the box after the horizontal move,
   then gravity when the last ground probe found nothing (on the ground the
   velocity is zeroed), clamped to [-20, 20].
   */
  function FallVelocity(c: Config, p: Player, box: Rect, obstacles: seq<Rect>, delta: nat): (v: real)
    requires ValidConfig(c)
    ensures -MaxVerticalSpeed <= v <= MaxVerticalSpeed
    ensures p.onGround ==> v == 0.0
    ensures !p.onGround && HittingCeiling(box, obstacles) ==> v <= -1.0
    ensures !p.onGround && !HittingCeiling(box, obstacles) && -MaxVerticalSpeed <= p.yVelocity <= MaxVerticalSpeed ==>
              v <= p.yVelocity
  {
    var afterCeiling := CeilingCheck(p.yVelocity, box, obstacles);
    var v := if !p.onGround then afterCeiling - c.gravity * (delta as real) / 1000.0 else 0.0;
    Clamp(v, -MaxVerticalSpeed, MaxVerticalSpeed)
  }

  /** The direction of the vertical move: down for a negative velocity, up otherwise. */
  function VerticalDir(v: real): (d: Dir)
    ensures d == Down <==> v < 0.0
    ensures d == Up <==> v >= 0.0
  {
    if v < 0.0 then Down else Up
  }

  /** The distance of the vertical move: the truncated magnitude of the velocity. */
  function VerticalAmount(v: real): (n: nat)
    ensures v < 0.0 ==> n == -TruncToInt(v)
    ensures v >= 0.0 ==> n == TruncToInt(v)
  {
    if v < 0.0 then TruncToInt(-v) else TruncToInt(v)
  }

  /** Both branches of the vertical move aim at the box raised by the truncated velocity. */
  lemma VerticalTarget(box: Rect, v: real)
    ensures Displaced(box, VerticalDir(v), VerticalAmount(v)) == Shifted(box, 0, -TruncToInt(v))
  {
  }

  /** `y` lies between `a` and `b`, in either order. */
  predicate Between(y: int, a: int, b: int)
  {
    (a <= y <= b) || (b <= y <= a)
  }

  /**
   The vertical move of the collision box by the truncated velocity: a negative
   velocity moves it down, a non-negative one up.
   */
  function VerticalBox(c: Config, box: Rect, v: real, obstacles: seq<Rect>): (b: Rect)
    requires ValidConfig(c)
    ensures b.x == box.x && b.w == box.w && b.h == box.h
  {
    Resolved(box, VerticalDir(v), VerticalAmount(v), obstacles, c.upMargin)
  }

  /**
   In free space the box moves up by the truncated velocity (down when it is
   negative); from a clear start it ends between the start and the target height.
   */
  lemma {:induction false} VerticalBoxBounds(c: Config, box: Rect, v: real, obstacles: seq<Rect>)
    requires ValidConfig(c)
    ensures (forall i :: 0 <= i < |obstacles| ==> !Colliding(Shifted(box, 0, -TruncToInt(v)), obstacles[i])) ==>
              VerticalBox(c, box, v, obstacles).y == box.y - TruncToInt(v)
    ensures (forall i :: 0 <= i < |obstacles| ==> !Colliding(box, obstacles[i])) ==>
              Between(VerticalBox(c, box, v, obstacles).y, box.y, box.y - TruncToInt(v))
  {
    VerticalTarget(box, v);
    if v < 0.0 {
      DownEndsBetweenStartAndTarget(box, VerticalAmount(v), obstacles, c.upMargin);
    } else {
      UpEndsBetweenTargetAndStart(box, VerticalAmount(v), obstacles, c.upMargin);
    }
  }

  /** Knock-back distance: full recoil speed scaled by the share of the recoil window left. */
  function RecoilAmount(c: Config, delta: nat, remaining: int): int
    requires ValidConfig(c)
  {
    TruncToInt(c.recoilSpeed * (delta as real) / 1000.0 * ((remaining as real) / (c.recoilBar as real)))
  }

  /**
   Knock-back of the collision box: while the recoil timer runs, push the box away
   from the hit by the distance the drained timer leaves.
   */
  function RecoilBox(c: Config, box: Rect, recoilTimer: int, recoilRight: bool, obstacles: seq<Rect>, delta: nat): (b: Rect)
    requires ValidConfig(c)
    ensures recoilTimer <= 0 ==> b == box
    ensures b.y <= box.y && b.w == box.w && b.h == box.h
    ensures recoilTimer > 0 ==>
              var amount := RecoilAmount(c, delta, ClampedCountdown(recoilTimer, delta));
              if recoilRight then b.x <= box.x + amount else box.x - amount <= b.x
    // with nothing in the way, the knock-back covers the full distance away from the hit
    ensures recoilTimer > 0 ==>
              var target := Displaced(box, Facing(recoilRight), RecoilAmount(c, delta, ClampedCountdown(recoilTimer, delta)));
              (forall i :: 0 <= i < |obstacles| ==> !Colliding(target, obstacles[i])) ==> b == target
  {
    if recoilTimer > 0 then
      Resolved(box, Facing(recoilRight), RecoilAmount(c, delta, ClampedCountdown(recoilTimer, delta)), obstacles, c.upMargin)
    else box
  }

  /** `updateCanJumpIfHittingWall`: a player beside a wall may jump again. */
  function WallCheck(canJump: bool, box: Rect, obstacles: seq<Rect>): (r: bool)
    ensures r <==> canJump || (exists i :: 0 <= i < |obstacles| && AgainstSide(box, obstacles[i]))
  {
    canJump || BesideWall(box, obstacles)
  }

  /** The animation for a grounded player: walking by intent (right first), else idle by facing. */
  function GroundAnimation(c: Config, p: Player): AnimId
  {
    if p.moveRight then c.ids.moveRight
    else if p.moveLeft then c.ids.moveLeft
    else if p.faceRight then c.ids.idleRight
    else c.ids.idleLeft
  }

  function IsWallJump(c: Config, id: AnimId): bool
  {
    id == c.ids.wallJumpRight || id == c.ids.wallJumpLeft
  }

  /**
   The animation chosen after the moves: none while rolling or attacking; on the
   ground the walk or idle animation; in the air the jump animation, unless a wall
   jump is playing.
   */
  function SelectAnimation(c: Config, p: Player, grounded: bool): (a: AnimState)
    ensures a.next == p.anim.next && a.counter == p.anim.counter
    ensures p.rolling || p.attacking ==> a == p.anim
    ensures !p.rolling && !p.attacking && grounded ==> a.current == GroundAnimation(c, p)
    ensures !p.rolling && !p.attacking && !grounded ==>
              if IsWallJump(c, p.anim.current) then a == p.anim
              else a.current == (if p.faceRight then c.ids.jumpRight else c.ids.jumpLeft)
    ensures !p.rolling && !p.attacking && grounded ==> SwitchedTo(c.table, p.anim, GroundAnimation(c, p), a)
    ensures !p.rolling && !p.attacking && !grounded && !IsWallJump(c, p.anim.current) ==>
              SwitchedTo(c.table, p.anim, if p.faceRight then c.ids.jumpRight else c.ids.jumpLeft, a)
    ensures FrameInRange(c.table, p.anim) ==> FrameInRange(c.table, a)
  {
    if p.rolling || p.attacking then p.anim
    else if grounded then ChangeAnimation(c.table, p.anim, GroundAnimation(c, p))
    else if !IsWallJump(c, p.anim.current) then
      ChangeAnimation(c.table, p.anim, if p.faceRight then c.ids.jumpRight else c.ids.jumpLeft)
    else p.anim
  }

  /**
   The end of the movement part of `update`: probe for ground; unless rolling or
   attacking, pick the animation and, on the ground, allow jumping; with no jump
   cooldown, probe for walls; and drop the walk intents.
   */
  function Settle(c: Config, p: Player, obstacles: seq<Rect>): (r: Player)
    ensures r == p.(onGround := r.onGround, canJump := r.canJump, anim := r.anim,
                    moveRight := false, moveLeft := false)
    ensures r.onGround <==> exists i :: 0 <= i < |obstacles| && Colliding(Shifted(p.box, 0, 1), obstacles[i])
    ensures r.anim == SelectAnimation(c, p, r.onGround)
    ensures !p.rolling && !p.attacking && r.onGround ==> r.canJump
    ensures p.canJump ==> r.canJump
    ensures p.jumpTimer == 0 && BesideWall(p.box, obstacles) ==> r.canJump
    ensures r.canJump && !p.canJump ==>
              (r.onGround && !p.rolling && !p.attacking) || (p.jumpTimer == 0 && BesideWall(p.box, obstacles))
  {
    var grounded := DetectOnGround(p.box, obstacles);
    var landed := p.canJump || (grounded && !p.rolling && !p.attacking);
    var canJump := if p.jumpTimer == 0 then WallCheck(landed, p.box, obstacles) else landed;
    p.(onGround := grounded, anim := SelectAnimation(c, p, grounded), canJump := canJump,
       moveRight := false, moveLeft := false)
  }

  /**
   One call of `update`. `expired[i]` is the removal flag effect `i` reports after
   its own update this tick. Every tick ends with at least the vertical `moveHelp`,
   so the sprite position is always re-derived from the final collision box.
   */
  function Update(c: Config, p: Player, obstacles: seq<Rect>, delta: nat, expired: seq<bool>): (r: Player)
    requires ValidConfig(c)
    requires |expired| == |p.effects|
    // timers count down and stop at zero
    ensures r.invincibleTimer == ClampedCountdown(p.invincibleTimer, delta)
    ensures r.jumpTimer == ClampedCountdown(p.jumpTimer, delta)
    ensures r.attackCoolDown == ClampedCountdown(p.attackCoolDown, delta)
    ensures p.rolling && p.rollCoolDown >= 0 ==> r.rollCoolDown == ClampedCountdown(p.rollCoolDown, delta)
    ensures !p.rolling ==> r.rollCoolDown == p.rollCoolDown
    ensures r.recoilTimer == ClampedCountdown(p.recoilTimer, delta)
    // actions end with their cooldowns
    ensures r.attacking <==> p.attacking && !(0 < p.attackCoolDown <= delta)
    ensures r.rolling <==> p.rolling && delta <= p.rollCoolDown
    // motion
    ensures -MaxVerticalSpeed <= r.yVelocity <= MaxVerticalSpeed
    ensures !r.moveRight && !r.moveLeft
    ensures r.onGround <==> exists i :: 0 <= i < |obstacles| && Colliding(Shifted(r.box, 0, 1), obstacles[i])
    ensures r.pos == Point(r.box.x - c.hitBoxMarginX, r.box.y)
    ensures r.box.w == p.box.w && r.box.h == p.box.h
    // without a roll, a walk intent or knock-back the player does not move sideways
    ensures !p.rolling && !p.moveRight && !p.moveLeft && p.recoilTimer <= 0 ==> r.box.x == p.box.x
    // untouched by a tick
    ensures r.health == p.health && r.dead == p.dead && r.faceRight == p.faceRight
    ensures r.recoilFaceRight == p.recoilFaceRight
    ensures r.effects == Kept(p.effects, expired)
    ensures r.anim.next == p.anim.next
  {
    var timed := TickTimers(p, delta);
    var moved := HorizontalBox(c, timed, obstacles, delta, p.rolling);
    var v := FallVelocity(c, timed, moved, obstacles, delta);
    var fallen := VerticalBox(c, moved, v, obstacles);
    var box := RecoilBox(c, fallen, p.recoilTimer, p.recoilFaceRight, obstacles, delta);
    var placed := timed.(box := box, pos := Point(box.x - c.hitBoxMarginX, box.y), yVelocity := v,
                         recoilTimer := ClampedCountdown(p.recoilTimer, delta));
    var settled := Settle(c, placed, obstacles);
    settled.(effects := Kept(settled.effects, expired),
             anim := UpdateAnimation(c.table, settled.anim, c.animationInterval))
  }
}

=== FILE: wrappers.dfy ===
/** Optional values, used where the controller may or may not produce something. */
module Wrappers {

  datatype Option<+T> = None | Some(value: T)
}
